=== FILE: README.md ===
# Resource dropdown for function bindings: a Dafny model

This project models the logic of the "resource" dropdown that a function
binding editor shows for a connection setting (Storage, Event Hub, Service
Bus, Cosmos DB/DocumentDB, or a plain app setting). The model covers:

- **The setting classifier.** It takes the app's settings, in enumeration
  order, and the binding's resource kind. It returns the dropdown options
  whose lower-cased values look like a connection string of that kind. The
  options are headed by a synthetic `"<name> (new)"` option when a setting
  has just been created through the "New" callout.
- **The unique-name generator.** It tries the default name, then the
  default name followed by 2, 3, … It returns the first candidate that no
  existing name equals when case is ignored.
- **The selection handler and the render-time rules.** These cover what a
  selection writes into the binding form, and how it extends the settings
  object. They also cover when the first option is picked automatically,
  and when a bound value missing from the options is reported.

Modules, one file each:

- `wrappers.dfy` (`Wrappers`): `Option`.
- `strings.dfy` (`Strings`): `toLowerCase` (ASCII), `indexOf`, the decimal
  text of a count, JavaScript truthiness of an optional string, and
  case-insensitive equality.
- `app_settings.dfy` (`AppSettings`): the settings object as an ordered
  sequence of entries, its lookup, and property assignment.
- `resource_filter.dfy` (`ResourceFilter`): `filterResourcesFromAppSetting`
  and its four per-kind helpers.
- `setting_name.dfy` (`SettingName`): `generateAppSettingName`, a method with
  a loop. Its termination measure is `|keys| + 1 - count`. It rests on
  `CollisionsBounded`: the lower-cased candidates are pairwise distinct,
  so no more than `|keys|` of them can collide.
- `resource_dropdown.dfy` (`ResourceDropdown`): `onChange`, the auto-select
  and missing-option rules, and one render of the component as a pure
  function from props and state to the view, the form writes and the next
  state. A run of the component is a sequence of events: renders, the
  settings fetch, the callout's setters and the user's picks.

Behaviour of the code worth knowing:

- **`onChange` writes through an alias.** The code aliases the
  component's own settings object (`const newAppSettings = appSettings`)
  and assigns into it. So the component's settings change
  too, and the next render classifies the updated object.
  `ResourceDropdown.OnChange` returns that updated object, and
  `ResourceDropdown.Render` keeps it as the next state.
- **An unrecognised resource kind returns nothing.** It gets an empty list,
  without the synthetic "(new)" option. The `return []` after the `switch`
  skips the head that every known kind builds.
- **Truthiness, not presence, decides.** An empty pending name adds no
  "(new)" option. Storage's `key !== newAppSettingName` still drops a
  setting whose name is the empty string in that case. An option whose
  `data` is the empty string is treated as carrying no new setting.

## Model

| member | source | states |
|---|---|---|
| Strings.IndexOf | client-react/src/pages/app/functions/common/ResourceDropdown.tsx:216 | `indexOf` gives the first position where the pattern occurs, or -1 exactly when it occurs nowhere |
| Strings.ContainsInside | client-react/src/pages/app/functions/common/ResourceDropdown.tsx:216 | a value built around a pattern passes the `indexOf(pattern) > -1` test |
| Strings.LowerChar | client-react/src/pages/app/functions/common/ResourceDropdown.tsx:215 | one character lower-cased: a capital A-Z becomes its small letter, anything else is unchanged, and no capital remains |
| Strings.ToLower | client-react/src/pages/app/functions/common/ResourceDropdown.tsx:215 | lower-casing keeps the length, turns each capital A-Z into its small letter (32 code points on), and changes no other character |
| Strings.ToLowerAppend | client-react/src/pages/app/functions/common/ResourceDropdown.tsx:215 | lower-casing a concatenation lower-cases each part |
| Strings.ToLowerKeepsDigits | client-react/src/pages/app/functions/common/ResourceDropdown.tsx:269 | the numeric suffix is unaffected by case-insensitive comparison |
| Strings.IsTruthy | client-react/src/pages/app/functions/common/ResourceDropdown.tsx:212 | JavaScript truthiness of a string-or-undefined: `undefined` and the empty string are falsy, every other string is truthy |
| Strings.Contains | client-react/src/pages/app/functions/common/ResourceDropdown.tsx:216 | `value.indexOf(pattern) > -1` holds exactly when the pattern occurs at some position of the value |
| Strings.EqualsIgnoreCase | client-react/src/pages/app/functions/common/ResourceDropdown.tsx:264 | two names are equal ignoring case exactly when they have one length and agree character by character after lower-casing |
| Strings.NatToString | client-react/src/pages/app/functions/common/ResourceDropdown.tsx:269 | the count's text is a non-empty run of decimal digits, with no leading zero, one digit exactly below 10 |
| Strings.ParseNatToString | client-react/src/pages/app/functions/common/ResourceDropdown.tsx:269 | reading the count's decimal text back gives the count |
| Strings.NatToStringInjective | client-react/src/pages/app/functions/common/ResourceDropdown.tsx:269 | different counts render as different suffixes |
| AppSettings.FindKey | client-react/src/pages/app/functions/common/ResourceDropdown.tsx:184 | the position of a property is the first entry with that name, or -1 exactly when there is none |
| AppSettings.Lookup | client-react/src/pages/app/functions/common/ResourceDropdown.tsx:215 | `appSettings[key]` is undefined exactly when no entry has that name, else the value of such an entry |
| AppSettings.LookupEntry | client-react/src/pages/app/functions/common/ResourceDropdown.tsx:214-215 | in a settings object every enumerated name looks up its own value |
| AppSettings.Put | client-react/src/pages/app/functions/common/ResourceDropdown.tsx:184 | property assignment keeps the names in place (appending a new one last) and makes the name answer the new value |
| AppSettings.FindKeyByKeys | client-react/src/pages/app/functions/common/ResourceDropdown.tsx:184 | overwriting a value moves no property |
| AppSettings.PutKeepsOthers | client-react/src/pages/app/functions/common/ResourceDropdown.tsx:184 | property assignment leaves every other property's value unchanged |
| AppSettings.PutKeepsDistinctKeys | client-react/src/pages/app/functions/common/ResourceDropdown.tsx:184 | property assignment never creates a second property of the same name |
| AppSettings.SameKeySamePosition | client-react/src/pages/app/functions/common/ResourceDropdown.tsx:214-215 | in a settings object a name is enumerated once, so it fixes its entry |
| ResourceFilter.PlainOption | client-react/src/pages/app/functions/common/ResourceDropdown.tsx:217 | an existing setting is offered as `{ key, text: key }`: shown under its own name, with nothing to save |
| ResourceFilter.NewOption | client-react/src/pages/app/functions/common/ResourceDropdown.tsx:212 | the pending setting is offered as `{ key: name, text: name + " (new)" }` |
| ResourceFilter.NewOptions | client-react/src/pages/app/functions/common/ResourceDropdown.tsx:212 | the head is one option exactly when the pending name is truthy |
| ResourceFilter.Scan | client-react/src/pages/app/functions/common/ResourceDropdown.tsx:214-219 | the loop over the settings lists no more options than settings, each shown under its own name |
| ResourceFilter.ScanSound | client-react/src/pages/app/functions/common/ResourceDropdown.tsx:214-219 | every option the loop pushes names a setting that passed the test |
| ResourceFilter.ScanComplete | client-react/src/pages/app/functions/common/ResourceDropdown.tsx:214-219 | every setting that passes the test is pushed |
| ResourceFilter.ScanAppend | client-react/src/pages/app/functions/common/ResourceDropdown.tsx:214-219 | the loop follows settings order: the options for two runs of settings are the first run's followed by the second's |
| ResourceFilter.ScanAcceptingAll | client-react/src/pages/app/functions/common/ResourceDropdown.tsx:238-240 | a loop without a test lists every setting, position by position |
| ResourceFilter.IsStorageConnection | client-react/src/pages/app/functions/common/ResourceDropdown.tsx:215-216 | the lower-cased value contains both `accountname` and `accountkey` |
| ResourceFilter.IsServiceBusConnection | client-react/src/pages/app/functions/common/ResourceDropdown.tsx:227-228 | the lower-cased value contains both `sb://` and `sharedaccesskeyname` |
| ResourceFilter.IsDocumentDBConnection | client-react/src/pages/app/functions/common/ResourceDropdown.tsx:249-250 | the lower-cased value contains both `accountendpoint` and `documents` |
| ResourceFilter.Accepts | client-react/src/pages/app/functions/common/ResourceDropdown.tsx:197-255 | the per-kind test: Storage connection and a name other than the pending one; Event Hub and Service Bus connection; any value for AppSetting; DocumentDB connection; nothing for an unrecognised kind |
| ResourceFilter.ScanAvoids | client-react/src/pages/app/functions/common/ResourceDropdown.tsx:214-219 | a loop whose test refuses a name never pushes an option under that name |
| ResourceFilter.HeadThenScan | client-react/src/pages/app/functions/common/ResourceDropdown.tsx:211-254 | each per-kind list is the head followed by at most one plain option per setting |
| ResourceFilter.HeadThenScanAll | client-react/src/pages/app/functions/common/ResourceDropdown.tsx:236-242 | the head followed by a loop without a test lists every setting, position by position, after the head |
| ResourceFilter.StorageTestSkipsPending | client-react/src/pages/app/functions/common/ResourceDropdown.tsx:216 | the Storage test refuses a setting named like the pending setting, whatever its value |
| ResourceFilter.StorageScanSkipsPending | client-react/src/pages/app/functions/common/ResourceDropdown.tsx:211-220 | after the head, the Storage list has no option under the pending name |
| ResourceFilter.GetStorageSettings | client-react/src/pages/app/functions/common/ResourceDropdown.tsx:211-221 | the "(new)" head, then at most one plain option per setting and none under the pending name; which settings and in what order: `ListedIffAccepted`, `ListedKeepsOrder` |
| ResourceFilter.GetEventHubAndServiceBusSettings | client-react/src/pages/app/functions/common/ResourceDropdown.tsx:223-233 | the "(new)" head, then at most one plain option per setting; which settings and in what order: `ListedIffAccepted`, `ListedKeepsOrder` |
| ResourceFilter.GetDocumentDBSettings | client-react/src/pages/app/functions/common/ResourceDropdown.tsx:245-255 | the "(new)" head, then at most one plain option per setting; which settings and in what order: `ListedIffAccepted`, `ListedKeepsOrder` |
| ResourceFilter.GetAppSettings | client-react/src/pages/app/functions/common/ResourceDropdown.tsx:235-243 | the "(new)" head, then one plain option per setting, in settings order |
| ResourceFilter.FilterResourcesFromAppSetting | client-react/src/pages/app/functions/common/ResourceDropdown.tsx:192-209 | an unrecognised kind gets an empty list; every known kind's list starts with the "(new)" head |
| ResourceFilter.SharedTest | client-react/src/pages/app/functions/common/ResourceDropdown.tsx:200-202 | Service Bus settings pass the Event Hub test exactly when they pass their own kind's test |
| ResourceFilter.ListedIsScan | client-react/src/pages/app/functions/common/ResourceDropdown.tsx:197-208 | after the head, each known kind lists what its loop with its own test lists |
| ResourceFilter.ListedAreAccepted | client-react/src/pages/app/functions/common/ResourceDropdown.tsx:211-254 | every option after the head names a setting whose lower-cased value passes the kind's test (Storage: `accountname` and `accountkey`, name not the pending one; Event Hub/Service Bus: `sb://` and `sharedaccesskeyname`; DocumentDB: `accountendpoint` and `documents`; AppSetting: any) |
| ResourceFilter.AcceptedAreListed | client-react/src/pages/app/functions/common/ResourceDropdown.tsx:211-254 | every setting that passes the kind's test is listed after the head |
| ResourceFilter.ListedNameAccepted | client-react/src/pages/app/functions/common/ResourceDropdown.tsx:211-254 | in a settings object the setting whose name an option shows passes the kind's test with its own value |
| ResourceFilter.ListedOnlyIfAccepted | client-react/src/pages/app/functions/common/ResourceDropdown.tsx:211-254 | in a settings object only settings that pass the kind's test are listed |
| ResourceFilter.ListedIffAccepted | client-react/src/pages/app/functions/common/ResourceDropdown.tsx:211-254 | for a settings object, a setting is listed exactly when it passes the kind's test |
| ResourceFilter.ListedKeepsOrder | client-react/src/pages/app/functions/common/ResourceDropdown.tsx:214 | options follow settings order for every kind |
| ResourceFilter.ListedArePlain | client-react/src/pages/app/functions/common/ResourceDropdown.tsx:217 | every setting is listed under its own name, with nothing to save |
| ResourceFilter.NewOptionIffPending | client-react/src/pages/app/functions/common/ResourceDropdown.tsx:197-246 | a "(new)" option, keyed by the pending name, heads the list exactly when the kind is known and the pending name is truthy; no other option has a text differing from its key |
| ResourceFilter.StorageListsPendingOnce | client-react/src/pages/app/functions/common/ResourceDropdown.tsx:211-220 | for Storage, the pending name appears only as the "(new)" option |
| ResourceFilter.EventHubListsPendingTwice | client-react/src/pages/app/functions/common/ResourceDropdown.tsx:223-233 | Event Hub and Service Bus do not skip the pending name: a matching setting of that name is listed again after the "(new)" option |
| ResourceFilter.AppSettingListsEveryKey | client-react/src/pages/app/functions/common/ResourceDropdown.tsx:235-243 | for AppSetting, the names listed after the head are exactly the setting names, in order |
| ResourceFilter.EventHubSameAsServiceBus | client-react/src/pages/app/functions/common/ResourceDropdown.tsx:200-202 | Event Hub and Service Bus bindings are offered the same list |
| ResourceFilter.ServiceBusShape | client-react/src/pages/app/functions/common/ResourceDropdown.tsx:227-228 | any value containing `sb://` and later `SharedAccessKeyName`, the markers and the text around them each in any case, is an Event Hub/Service Bus connection |
| ResourceFilter.ServiceBusShapeLowered | client-react/src/pages/app/functions/common/ResourceDropdown.tsx:227-228 | lower-casing such a value, with the markers written in any case, gives the lower-case markers with each part around them lower-cased |
| ResourceFilter.ServiceBusExample | client-react/src/pages/app/functions/common/ResourceDropdown.tsx:223-233 | of an Event Hub connection string and a value without `SharedAccessKeyName`, only the first is offered |
| ResourceFilter.ServiceBusCapitalsExample | client-react/src/pages/app/functions/common/ResourceDropdown.tsx:227-228 | `Endpoint=SB://x;SHAREDACCESSKEYNAME=y`, markers in capitals, is taken for a Service Bus connection |
| SettingName.CandidatesDiffer | client-react/src/pages/app/functions/common/ResourceDropdown.tsx:267-269 | distinct passes of the loop try names that differ even ignoring case |
| SettingName.Candidate | client-react/src/pages/app/functions/common/ResourceDropdown.tsx:267-269 | the name tried on a pass: the default on the first, the default followed by the count afterwards (stated by `CandidateReadsBack`) |
| SettingName.CandidateReadsBack | client-react/src/pages/app/functions/common/ResourceDropdown.tsx:267-269 | the first pass tries the default itself; a later pass tries the default followed by decimal digits that read back as the pass count |
| SettingName.Collides | client-react/src/pages/app/functions/common/ResourceDropdown.tsx:263-265 | a name collides when some existing name equals it ignoring case |
| SettingName.CollidesIgnoresCase | client-react/src/pages/app/functions/common/ResourceDropdown.tsx:263-265 | whether a candidate collides does not depend on the case it is written in |
| SettingName.LoweredKeys | client-react/src/pages/app/functions/common/ResourceDropdown.tsx:263-264 | the existing names, lower-cased, are at most as many as the names |
| SettingName.TriedNames | client-react/src/pages/app/functions/common/ResourceDropdown.tsx:258-269 | the first n passes try exactly n different lower-cased names |
| SettingName.CollisionsBounded | client-react/src/pages/app/functions/common/ResourceDropdown.tsx:261-270 | at most as many passes as there are existing names can collide, so the loop ends |
| SettingName.GenerateAppSettingName | client-react/src/pages/app/functions/common/ResourceDropdown.tsx:257-273 | the result collides with no existing name ignoring case; it is the first free candidate; a free default is returned unchanged; otherwise it is the default followed by some count from 2 to `|keys| + 1` |
| SettingName.FirstFreeNameUnique | client-react/src/pages/app/functions/common/ResourceDropdown.tsx:257-273 | the first free candidate is unique, so the contract of `GenerateAppSettingName` determines its result |
| SettingName.FirstCollisionGivesTwo | client-react/src/pages/app/functions/common/ResourceDropdown.tsx:258-269 | after a first collision the suffix tried is 2, not 1 |
| SettingName.FreeDefaultExample | client-react/src/pages/app/functions/common/ResourceDropdown.tsx:257-273 | with only `bar` taken, `foo` is kept |
| SettingName.TakenDefaultExample | client-react/src/pages/app/functions/common/ResourceDropdown.tsx:257-273 | with `foo` taken, `foo2` is chosen |
| SettingName.SuffixedNamesLowered | client-react/src/pages/app/functions/common/ResourceDropdown.tsx:267-269 | the second and third passes try `foo2` and `foo3`, and `foo`, `foo2`, `foo3` are already lower case |
| SettingName.CaseCollisionExample | client-react/src/pages/app/functions/common/ResourceDropdown.tsx:257-273 | with `FOO` taken, `foo` collides regardless of case and `foo2` is chosen |
| SettingName.TakenSuffixExample | client-react/src/pages/app/functions/common/ResourceDropdown.tsx:257-273 | with `foo` and `foo2` taken, `foo3` is chosen |
| ResourceDropdown.OnChange | client-react/src/pages/app/functions/common/ResourceDropdown.tsx:170-190 | no option writes nothing; an option writes its key into the bound field, then `newAppSettings`: the settings with `key ↦ data` assigned (others unchanged, names in place) when `data` is truthy, else null; a selection never writes an error |
| ResourceDropdown.Offers | client-react/src/pages/app/functions/common/ResourceDropdown.tsx:79 | `options.some(option => option.key === value)`: some option has the value as its key |
| ResourceDropdown.AutoSelect | client-react/src/pages/app/functions/common/ResourceDropdown.tsx:69-70 | a value is picked only for an empty field, and it is an offered option key |
| ResourceDropdown.ReportsMissing | client-react/src/pages/app/functions/common/ResourceDropdown.tsx:79 | the missing-option report needs a non-empty field, so it never falls in a render that auto-selects |
| ResourceDropdown.PendingName | client-react/src/pages/app/functions/common/ResourceDropdown.tsx:65 | the pending name handed to the classifier is the key of the setting created through the callout, if any |
| ResourceDropdown.AutoSelectWrites | client-react/src/pages/app/functions/common/ResourceDropdown.tsx:69-71 | an empty field with options gets the first option's key; at most one write, never an error, and only an offered key into an empty field |
| ResourceDropdown.NoErrorsCount | client-react/src/pages/app/functions/common/ResourceDropdown.tsx:79-82 | writes without a `setFieldError` count no error |
| ResourceDropdown.ReadyWrites | client-react/src/pages/app/functions/common/ResourceDropdown.tsx:68-82 | a ready render writes exactly the auto-selection, then the pending selection's writes in order, then the missing-option error when, and only when, it is reported; nothing else |
| ResourceDropdown.Render | client-react/src/pages/app/functions/common/ResourceDropdown.tsx:56-82 | read-only shows just the bound value and writes nothing; without settings it is loading and writes nothing; otherwise it shows the classifier's options; an empty field with options first gets the first key; a selection back from the callout writes its key and the `newAppSettings` value and leaves the settings `OnChange` made, and no selection leaves the settings as they were; the selection is cleared; the missing-option error is written at most once, exactly when the field is non-empty, no option has its value, and it was not shown before; the shown flag remembers it; a ready render writes exactly the auto-selection, then the selection's writes, then the error if reported, in that order and each once |
| ResourceDropdown.LastValueOf | client-react/src/pages/app/functions/common/ResourceDropdown.tsx:70-80 | the value a field holds after a list of form writes: `None` exactly when no write puts a value into it, otherwise the value of a write into it that no later write into it follows |
| ResourceDropdown.LastValueOfAppend | client-react/src/pages/app/functions/common/ResourceDropdown.tsx:70-80 | after two stretches of writes a field holds the second stretch's last value for it, or else the first's |
| ResourceDropdown.OnChangeLastValue | client-react/src/pages/app/functions/common/ResourceDropdown.tsx:177-188 | after a selection's writes the bound field holds the chosen key, or, when the bound field is `newAppSettings` itself, the settings value written after it |
| ResourceDropdown.ChangeWrittenLast | client-react/src/pages/app/functions/common/ResourceDropdown.tsx:68-82 | in a ready render's writes neither the earlier auto-selection nor the later error changes what the selection's writes left in the bound field |
| ResourceDropdown.SelectionWrittenLast | client-react/src/pages/app/functions/common/ResourceDropdown.tsx:68-76 | a selection back from a callout is what the bound field holds after the render, whatever the auto-selection wrote before it |
| ResourceDropdown.BoundFieldWritesOnlyError | client-react/src/pages/app/functions/common/ResourceDropdown.tsx:69-82 | a ready render of a bound field with no selection pending writes nothing but, possibly, the missing-option error |
| ResourceDropdown.ErrorCountAppend | client-react/src/pages/app/functions/common/ResourceDropdown.tsx:79-82 | error writes of two runs add up |
| ResourceDropdown.Step | client-react/src/pages/app/functions/common/ResourceDropdown.tsx:42-88 | only a render writes the missing-option error, at most once and only when not yet shown, and the shown flag afterwards is set exactly when it had been or an error was written; a fetch, a callout's setters and a pick write no error |
| ResourceDropdown.Run | client-react/src/pages/app/functions/common/ResourceDropdown.tsx:42-88 | the life of the component: the events in order, their form writes concatenated and the state threaded from one to the next |
| ResourceDropdown.RunAppend | client-react/src/pages/app/functions/common/ResourceDropdown.tsx:42-88 | running two stretches of events in a row is running the second from the state the first leaves, with the writes concatenated |
| ResourceDropdown.MissingOptionErrorAtMostOnce | client-react/src/pages/app/functions/common/ResourceDropdown.tsx:42-88 | over any run of renders, fetches, callout returns and picks, the missing-option error is written at most once, and never after it was shown; the final flag says exactly whether it has been shown |
| ResourceDropdown.AutoSelectedValueIsNotMissing | client-react/src/pages/app/functions/common/ResourceDropdown.tsx:69-82 | once the field holds the auto-selected value, the next render does not report it missing |

## Left out

- The React rendering, hooks, the callout, the "New" link and the five `New*ConnectionCallout` components (lines 84-167). They are UI wiring. What a callout hands back is the `newAppSetting` and `selectedItem` parts of `ResourceDropdown.State`.
- The settings fetch and the logging of its failure (lines 42-54). These are I/O. The fetched settings are `State.appSettings`, and a failed fetch leaves it unset (the loading view). The stale-response race between fetches is not modelled.
- `SiteHelper.isFunctionAppReadOnly` and the site context (`ResourceDropdown.tsx` line 57). They are external state, so read-only mode is the boolean `Props.readOnly`.
- The translated message text passed to `setFieldError` (`ResourceDropdown.tsx` line 80). It comes from translation, so `SetFieldError` carries only the field name.
- Formik itself. `setFieldValue` and `setFieldError` are returned as `FormWrite` values, and the field value a render sees is a parameter.
- Strings.ToLower: lower-cases ASCII capitals only. JavaScript's `toLowerCase` follows Unicode case mapping, which can change other letters and, for a few characters, the length.
- AppSettings.Put: a new property is always added last. JavaScript enumerates integer-like property names first, in ascending order, and the settings sequence is taken to already be in `Object.keys` order.
- Strings.EqualsIgnoreCase: `StringUtils.equalsIgnoreCase` is not part of this model. It is taken to mean equal after lower-casing.
- An unset field (`undefined`/`null`) and the empty string are both modelled as `""`. Numeric option keys are not modelled.
- A pick in read-only mode (the dropdown of `ResourceDropdown.tsx` line 58 is drawn without this component's handler) or before the settings have loaded (no dropdown is drawn) is modelled as changing nothing; what a parent-supplied handler might do then is outside this component.
- `newAppSettings` is written as the whole settings resource (`id`, `name`, `location` and `properties`, lines 183-185); `FormValue.SettingsValue` holds only its `properties`, since the other fields pass through unchanged.
- `option.data` may hold any value. The model treats it as an optional string judged by JavaScript truthiness.
- `client-react/src/pages/app/app-settings/GeneralSettings/LinuxStacks/LinuxStacks.tsx` is not part of this model. Its stack and version logic lives in a data file that is not shown, and the rest is form wiring.
- `client-react/src/components/InformationLabel/InformationLabel.tsx` is not part of this model. It is presentation only: a theme-colour lookup and markup.

=== FILE: app_settings.dfy ===
/**
 An application's settings object: setting names mapped to their values,
 kept as a sequence so that the order `Object.keys` enumerates them in is
 part of the model.
 */
module AppSettings {
  import opened Wrappers

  /** One application setting: its name and its (usually connection-string) value. */
  datatype Entry = Entry(key: string, value: string)

  type Settings = seq<Entry>

  function Keys(s: Settings): (ks: seq<string>)
    ensures |ks| == |s|
    ensures forall i :: 0 <= i < |s| ==> ks[i] == s[i].key
  {
    seq(|s|, i requires 0 <= i < |s| => s[i].key)
  }

  predicate HasKey(s: Settings, k: string)
  {
    exists i :: 0 <= i < |s| && s[i].key == k
  }

  /** A settings object never holds one name twice. */
  predicate DistinctKeys(s: Settings)
  {
    forall i, j :: 0 <= i < j < |s| ==> s[i].key != s[j].key
  }

  /** In a settings object a name fixes its position. */
  lemma SameKeySamePosition(s: Settings, i: int, j: int)
    requires DistinctKeys(s)
    requires 0 <= i < |s| && 0 <= j < |s| && s[i].key == s[j].key
    ensures i == j
  {
  }

  /** The position of the property named `k`, or -1 when there is none. */
  function FindKey(s: Settings, k: string): (i: int)
    ensures -1 <= i < |s|
    ensures i == -1 <==> !HasKey(s, k)
    ensures i >= 0 ==> s[i].key == k && forall j :: 0 <= j < i ==> s[j].key != k
  {
    if |s| == 0 then -1
    else
      var i := FindKey(s[..|s| - 1], k);
      if i >= 0 then i
      else if s[|s| - 1].key == k then |s| - 1
      else -1
  }

  /** `properties[k]`: the value stored under `k`, or `undefined`. */
  function Lookup(s: Settings, k: string): (r: Option<string>)
    ensures r.None? <==> !HasKey(s, k)
    ensures r.Some? ==> exists i :: 0 <= i < |s| && s[i] == Entry(k, r.value)
  {
    var i := FindKey(s, k);
    if i < 0 then None else Some(s[i].value)
  }

  lemma LookupEntry(s: Settings, i: int)
    requires DistinctKeys(s)
    requires 0 <= i < |s|
    ensures Lookup(s, s[i].key) == Some(s[i].value)
  {
  }

  /** Two settings objects listing the same names in the same order find
      every name at the same position. */
  lemma {:induction false} FindKeyByKeys(s: Settings, t: Settings, k: string)
    requires Keys(s) == Keys(t)
    ensures FindKey(s, k) == FindKey(t, k)
  {
    assert forall i :: 0 <= i < |s| ==> s[i].key == Keys(s)[i] == Keys(t)[i] == t[i].key;
    var a, b := FindKey(s, k), FindKey(t, k);
    if a >= 0 && b >= 0 {
      assert !(a < b) && !(b < a);
    }
  }

  /** `properties[k] = v` on a plain object: an existing property is
      overwritten where it stands, a new one is added after all others. */
  function Put(s: Settings, k: string, v: string): (r: Settings)
    ensures Keys(r) == if HasKey(s, k) then Keys(s) else Keys(s) + [k]
    ensures Lookup(r, k) == Some(v)
  {
    var i := FindKey(s, k);
    if i < 0 then
      var r := s + [Entry(k, v)];
      assert r[|s|].key == k;
      r
    else
      var r := s[i := Entry(k, v)];
      assert Keys(r) == Keys(s);
      FindKeyByKeys(r, s, k);
      r
  }

  /** Assigning one property leaves every other property as it was. */
  lemma PutKeepsOthers(s: Settings, k: string, v: string, other: string)
    requires other != k
    ensures Lookup(Put(s, k, v), other) == Lookup(s, other)
  {
    var r := Put(s, k, v);
    var i := FindKey(s, k);
    if i >= 0 {
      FindKeyByKeys(r, s, other);
    } else {
      var j := FindKey(s, other);
      var j' := FindKey(r, other);
      assert forall n :: 0 <= n < |s| ==> r[n] == s[n];
      if j >= 0 {
        assert !(j < j') && !(j' < j);
      }
    }
  }

  lemma PutKeepsDistinctKeys(s: Settings, k: string, v: string)
    requires DistinctKeys(s)
    ensures DistinctKeys(Put(s, k, v))
  {
    var r := Put(s, k, v);
    assert forall i :: 0 <= i < |r| ==> r[i].key == Keys(r)[i];
  }
}

=== FILE: resource_dropdown.dfy ===
/**
 The decisions the resource dropdown takes on each render and on each
 selection: which option to pick automatically, when to flag a bound value
 that is no longer offered, and what a selection writes into the binding
 form. Form writes are returned as values rather than performed.
 */
module ResourceDropdown {
  import opened Wrappers
  import opened Strings
  import opened AppSettings
  import opened ResourceFilter

  /** A value written into the binding form. */
  datatype FormValue = Text(text: string) | SettingsValue(settings: Settings) | Null

  /** A call the dropdown makes on the form: `setFieldValue` or `setFieldError`. */
  datatype FormWrite = SetFieldValue(field: string, value: FormValue) | SetFieldError(field: string)

  /** The form field through which new settings are handed on to be saved. */
  const NewAppSettingsField := "newAppSettings"

  /** No write among `writes` is a `setFieldError`. */
  predicate NoErrors(writes: seq<FormWrite>)
  {
    forall i :: 0 <= i < |writes| ==> !writes[i].SetFieldError?
  }

  /** The number of `setFieldError` calls among the writes. */
  function ErrorCount(writes: seq<FormWrite>): nat
  {
    if |writes| == 0 then 0
    else (if writes[0].SetFieldError? then 1 else 0) + ErrorCount(writes[1..])
  }

  lemma {:induction false} ErrorCountAppend(a: seq<FormWrite>, b: seq<FormWrite>)
    ensures ErrorCount(a + b) == ErrorCount(a) + ErrorCount(b)
    decreases |a|
  {
    if |a| == 0 {
      assert a + b == b;
    } else {
      assert (a + b)[1..] == a[1..] + b;
      ErrorCountAppend(a[1..], b);
    }
  }

  lemma {:induction false} NoErrorsCount(writes: seq<FormWrite>)
    requires NoErrors(writes)
    ensures ErrorCount(writes) == 0
    decreases |writes|
  {
    if |writes| > 0 {
      assert NoErrors(writes[1..]) by {
        forall i | 0 <= i < |writes[1..]|
          ensures !writes[1..][i].SetFieldError?
        {
          assert writes[1..][i] == writes[i + 1];
        }
      }
      NoErrorsCount(writes[1..]);
    }
  }

  /** What a selection does: the form writes, and the settings object the
      component holds afterwards. */
  datatype Change = Change(writes: seq<FormWrite>, appSettings: Settings)

  /** `onChange`. The settings object handed on as `newAppSettings` is the
      component's own, updated in place, so the component keeps the update. */
  function OnChange(option: Option<DropdownOption>, fieldName: string, appSettings: Settings): (r: Change)
    ensures option.None? ==> r == Change([], appSettings)
    ensures option.Some? ==> |r.writes| == 2 && r.writes[0] == SetFieldValue(fieldName, Text(option.value.key))
    ensures NoErrors(r.writes)
    ensures option.Some? && IsTruthy(option.value.data) ==>
      && r.writes[1] == SetFieldValue(NewAppSettingsField, SettingsValue(r.appSettings))
      && Lookup(r.appSettings, option.value.key) == option.value.data
      && (forall k :: k != option.value.key ==> Lookup(r.appSettings, k) == Lookup(appSettings, k))
      && Keys(r.appSettings) == (if HasKey(appSettings, option.value.key) then Keys(appSettings) else Keys(appSettings) + [option.value.key])
    ensures option.Some? && !IsTruthy(option.value.data) ==>
      r.writes[1] == SetFieldValue(NewAppSettingsField, Null) && r.appSettings == appSettings
  {
    match option
    case None => Change([], appSettings)
    case Some(o) =>
      var chosen := SetFieldValue(fieldName, Text(o.key));
      if IsTruthy(o.data) then
        var updated := Put(appSettings, o.key, o.data.value);
        assert forall k :: k != o.key ==> Lookup(updated, k) == Lookup(appSettings, k) by {
          forall k | k != o.key
            ensures Lookup(updated, k) == Lookup(appSettings, k)
          {
            PutKeepsOthers(appSettings, o.key, o.data.value, k);
          }
        }
        Change([chosen, SetFieldValue(NewAppSettingsField, SettingsValue(updated))], updated)
      else
        Change([chosen, SetFieldValue(NewAppSettingsField, Null)], appSettings)
  }

  /** The option key offered as `options.some(option => option.key === value)`. */
  predicate Offers(options: seq<DropdownOption>, value: string)
  {
    exists i :: 0 <= i < |options| && options[i].key == value
  }

  /** The value picked on load: the first option's key, when the bound field
      is empty (the empty string stands for an unset field) and there are
      options. */
  function AutoSelect(fieldValue: string, options: seq<DropdownOption>): (r: Option<string>)
    ensures r.Some? ==> fieldValue == "" && Offers(options, r.value)
  {
    if fieldValue == "" && |options| > 0 then Some(options[0].key) else None
  }

  /** Whether the bound value is reported as missing from the options. */
  predicate ReportsMissing(fieldValue: string, options: seq<DropdownOption>, shown: bool)
    ensures ReportsMissing(fieldValue, options, shown) ==> AutoSelect(fieldValue, options).None?
  {
    fieldValue != "" && !Offers(options, fieldValue) && !shown
  }

  /** The component's own state. */
  datatype State = State(
    appSettings: Option<Settings>,
    newAppSetting: Option<Entry>,
    selectedItem: Option<DropdownOption>,
    shownMissingOptionError: bool)

  /** What the component receives: whether the function app is read-only
      (decided elsewhere), the binding's resource kind, and the bound field. */
  datatype Props = Props(readOnly: bool, kind: ResourceKind, fieldName: string, fieldValue: string)

  datatype View = Loading | Dropdown(options: seq<DropdownOption>)

  /** One render: what is shown, what is written into the form, and the
      state the component is left in. */
  datatype Frame = Frame(view: View, writes: seq<FormWrite>, next: State)

  /** The pending name: the key of the setting created through the "New"
      callout, if any. */
  function PendingName(s: State): Option<string>
  {
    if s.newAppSetting.Some? then Some(s.newAppSetting.value.key) else None
  }

  /** The write the auto-select rule makes: the first option's key into an
      empty field, nothing otherwise. */
  function AutoSelectWrites(fieldName: string, fieldValue: string, options: seq<DropdownOption>): (w: seq<FormWrite>)
    ensures NoErrors(w) && |w| <= 1
    ensures fieldValue == "" && |options| > 0 ==> w == [SetFieldValue(fieldName, Text(options[0].key))]
    ensures |w| == 1 ==>
      (fieldValue == "" && w[0].SetFieldValue? && w[0].field == fieldName
        && w[0].value.Text? && Offers(options, w[0].value.text))
  {
    match AutoSelect(fieldValue, options)
    case Some(v) => [SetFieldValue(fieldName, Text(v))]
    case None => []
  }

  /** The writes of one ready render in order: the auto-selection, the
      pending selection's writes, and the missing-option error when it is
      reported. Only the report writes an error. */
  function ReadyWrites(autoSelect: seq<FormWrite>, change: seq<FormWrite>, fieldName: string, report: bool): (w: seq<FormWrite>)
    requires NoErrors(autoSelect) && NoErrors(change)
    ensures SetFieldError(fieldName) in w <==> report
    ensures ErrorCount(w) == (if report then 1 else 0)
    ensures |autoSelect| > 0 ==> |w| > 0 && w[0] == autoSelect[0]
    ensures |w| == |autoSelect| + |change| + (if report then 1 else 0)
    ensures w[..|autoSelect|] == autoSelect
    ensures forall i :: 0 <= i < |change| ==> w[|autoSelect| + i] == change[i]
    ensures forall x :: x in w ==> x in autoSelect || x in change || x == SetFieldError(fieldName)
  {
    var tail := if report then [SetFieldError(fieldName)] else [];
    assert forall i :: 0 <= i < |change| ==> (autoSelect + change + tail)[|autoSelect| + i] == change[i];
    assert (autoSelect + change + tail)[..|autoSelect|] == autoSelect;
    NoErrorsCount(autoSelect);
    NoErrorsCount(change);
    ErrorCountAppend(autoSelect, change);
    ErrorCountAppend(autoSelect + change, tail);
    assert SetFieldError(fieldName) !in autoSelect + change by {
      assert NoErrors(autoSelect + change);
    }
    autoSelect + change + tail
  }

  /** The body of the component up to the JSX it returns. */
  function Render(p: Props, s: State): (f: Frame)
    ensures p.readOnly ==>
      f == Frame(Dropdown([DropdownOption(p.fieldValue, p.fieldValue, None)]), [], s)
    ensures !p.readOnly && s.appSettings.None? ==> f == Frame(Loading, [], s)
    ensures !p.readOnly && s.appSettings.Some? ==>
      && f.view == Dropdown(FilterResourcesFromAppSetting(p.kind, s.appSettings.value, PendingName(s)))
      && f.next.selectedItem == None
      && f.next.newAppSetting == s.newAppSetting
      && f.next.appSettings.Some?
    ensures !p.readOnly && s.appSettings.Some? && p.fieldValue == "" && |f.view.options| > 0 ==>
      |f.writes| > 0 && f.writes[0] == SetFieldValue(p.fieldName, Text(f.view.options[0].key))
    ensures !p.readOnly && s.appSettings.Some? ==>
      (SetFieldError(p.fieldName) in f.writes <==>
        p.fieldValue != "" && !Offers(f.view.options, p.fieldValue) && !s.shownMissingOptionError)
    ensures !p.readOnly && s.appSettings.Some? && s.selectedItem.Some? ==>
      var c := OnChange(s.selectedItem, p.fieldName, s.appSettings.value);
      && SetFieldValue(p.fieldName, Text(s.selectedItem.value.key)) in f.writes
      && c.writes[1] in f.writes
      && f.next.appSettings == Some(c.appSettings)
    ensures !p.readOnly && s.appSettings.Some? && s.selectedItem.None? ==> f.next.appSettings == s.appSettings
    ensures f.next.shownMissingOptionError == (s.shownMissingOptionError || SetFieldError(p.fieldName) in f.writes)
    ensures ErrorCount(f.writes) == (if SetFieldError(p.fieldName) in f.writes then 1 else 0)
    ensures !p.readOnly && s.appSettings.Some? ==>
      forall w :: w in f.writes ==>
        || w in AutoSelectWrites(p.fieldName, p.fieldValue, f.view.options)
        || w in OnChange(s.selectedItem, p.fieldName, s.appSettings.value).writes
        || w == SetFieldError(p.fieldName)
    ensures !p.readOnly && s.appSettings.Some? ==>
      f.writes == ReadyWrites(AutoSelectWrites(p.fieldName, p.fieldValue, f.view.options),
                              OnChange(s.selectedItem, p.fieldName, s.appSettings.value).writes,
                              p.fieldName,
                              ReportsMissing(p.fieldValue, f.view.options, s.shownMissingOptionError))
  {
    if p.readOnly then
      Frame(Dropdown([DropdownOption(p.fieldValue, p.fieldValue, None)]), [], s)
    else if s.appSettings.None? then
      Frame(Loading, [], s)
    else
      var settings := s.appSettings.value;
      var options := FilterResourcesFromAppSetting(p.kind, settings, PendingName(s));
      var change := OnChange(s.selectedItem, p.fieldName, settings);
      var report := ReportsMissing(p.fieldValue, options, s.shownMissingOptionError);
      var auto := AutoSelectWrites(p.fieldName, p.fieldValue, options);
      var writes := ReadyWrites(auto, change.writes, p.fieldName, report);
      assert s.selectedItem.Some? ==> writes[|auto|] == change.writes[0] && writes[|auto| + 1] == change.writes[1];
      Frame(Dropdown(options), writes, State(Some(change.appSettings), s.newAppSetting, None, s.shownMissingOptionError || report))
  }

  /** `w` puts a value into `field`. */
  predicate WritesValue(w: FormWrite, field: string)
  {
    w.SetFieldValue? && w.field == field
  }

  /** The value the last of `writes` to put a value into `field` puts there,
      or `None` when none does: what the form holds for `field` afterwards. */
  function LastValueOf(writes: seq<FormWrite>, field: string): (r: Option<FormValue>)
    ensures r.None? <==> forall i :: 0 <= i < |writes| ==> !WritesValue(writes[i], field)
    ensures r.Some? ==>
      exists i :: 0 <= i < |writes| && writes[i] == SetFieldValue(field, r.value) &&
        (forall j :: i < j < |writes| ==> !WritesValue(writes[j], field))
    decreases |writes|
  {
    if |writes| == 0 then None
    else
      var last := writes[|writes| - 1];
      if WritesValue(last, field) then Some(last.value)
      else LastValueOf(writes[..|writes| - 1], field)
  }

  /** What a field holds after two stretches of writes: the second's last
      value for it, or else the first's. */
  lemma {:induction false} LastValueOfAppend(a: seq<FormWrite>, b: seq<FormWrite>, field: string)
    ensures LastValueOf(a + b, field)
         == if LastValueOf(b, field).Some? then LastValueOf(b, field) else LastValueOf(a, field)
    decreases |b|
  {
    if |b| == 0 {
      assert a + b == a;
    } else {
      assert (a + b)[..|a + b| - 1] == a + b[..|b| - 1];
      LastValueOfAppend(a, b[..|b| - 1], field);
    }
  }

  /** After a ready render's writes, the bound field holds the last value
      the selection's writes put there; an auto-selection before them and
      an error after them do not count. */
  lemma ChangeWrittenLast(autoSelect: seq<FormWrite>, change: seq<FormWrite>, fieldName: string, report: bool)
    requires NoErrors(autoSelect) && NoErrors(change)
    requires LastValueOf(change, fieldName).Some?
    ensures LastValueOf(ReadyWrites(autoSelect, change, fieldName, report), fieldName) == LastValueOf(change, fieldName)
  {
    var tail: seq<FormWrite> := if report then [SetFieldError(fieldName)] else [];
    assert ReadyWrites(autoSelect, change, fieldName, report) == autoSelect + change + tail;
    LastValueOfAppend(autoSelect + change, tail, fieldName);
    assert LastValueOf(tail, fieldName).None?;
    LastValueOfAppend(autoSelect, change, fieldName);
  }

  /** A selection leaves the chosen key in the bound field, unless the bound
      field is the `newAppSettings` field, which then holds what follows. */
  lemma OnChangeLastValue(option: DropdownOption, fieldName: string, appSettings: Settings)
    ensures var c := OnChange(Some(option), fieldName, appSettings);
      LastValueOf(c.writes, fieldName)
        == Some(if fieldName == NewAppSettingsField then c.writes[1].value else Text(option.key))
  {
    var c := OnChange(Some(option), fieldName, appSettings);
    assert c.writes == [c.writes[0]] + [c.writes[1]];
    LastValueOfAppend([c.writes[0]], [c.writes[1]], fieldName);
  }

  /** A selection back from a callout is what the bound field holds after
      the render, whatever the auto-selection wrote before it; only when the
      bound field is the `newAppSettings` field itself does the settings
      write that follows the key win. */
  lemma SelectionWrittenLast(p: Props, s: State)
    requires !p.readOnly && s.appSettings.Some? && s.selectedItem.Some?
    ensures var c := OnChange(s.selectedItem, p.fieldName, s.appSettings.value);
      LastValueOf(Render(p, s).writes, p.fieldName)
        == Some(if p.fieldName == NewAppSettingsField then c.writes[1].value else Text(s.selectedItem.value.key))
  {
    var f := Render(p, s);
    var c := OnChange(s.selectedItem, p.fieldName, s.appSettings.value);
    OnChangeLastValue(s.selectedItem.value, p.fieldName, s.appSettings.value);
    ChangeWrittenLast(AutoSelectWrites(p.fieldName, p.fieldValue, f.view.options), c.writes, p.fieldName,
                      ReportsMissing(p.fieldValue, f.view.options, s.shownMissingOptionError));
  }

  /** What happens to the component: a render, or a change of its state
      made outside a render. */
  datatype Event =
    | Rendered(props: Props)
      // the fetch effect's `setAppSettings` once the settings arrive
    | Fetched(settings: Settings)
      // a callout's `setNewAppSetting`
    | NewSettingSet(entry: Option<Entry>)
      // a callout's `setSelectedItem`
    | ItemSet(item: Option<DropdownOption>)
      // the user picks an option in the dropdown, whose handler is `onChange`
    | Picked(props: Props, option: DropdownOption)

  /** The form writes an event makes and the state it leaves. */
  datatype Outcome = Outcome(writes: seq<FormWrite>, next: State)

  /** One event. Only a render can report the missing option, at most once
      and only while it has not been shown, and the shown flag records
      exactly whether it has been. A pick reaches `onChange` only from the
      dropdown drawn once settings are loaded and the app is not read-only;
      otherwise no handler of this component sees it. */
  function Step(e: Event, s: State): (o: Outcome)
    ensures ErrorCount(o.writes) <= (if s.shownMissingOptionError then 0 else 1)
    ensures o.next.shownMissingOptionError == (s.shownMissingOptionError || ErrorCount(o.writes) > 0)
    ensures !e.Rendered? ==> ErrorCount(o.writes) == 0
  {
    match e
    case Rendered(p) =>
      var f := Render(p, s);
      Outcome(f.writes, f.next)
    case Fetched(settings) => Outcome([], s.(appSettings := Some(settings)))
    case NewSettingSet(entry) => Outcome([], s.(newAppSetting := entry))
    case ItemSet(item) => Outcome([], s.(selectedItem := item))
    case Picked(p, option) =>
      if p.readOnly || s.appSettings.None? then Outcome([], s)
      else
        var c := OnChange(Some(option), p.fieldName, s.appSettings.value);
        NoErrorsCount(c.writes);
        Outcome(c.writes, s.(appSettings := Some(c.appSettings)))
  }

  /** A run of events from state `s`: their form writes in order, and the
      state the last one leaves. */
  function Run(events: seq<Event>, s: State): Outcome
    decreases |events|
  {
    if |events| == 0 then Outcome([], s)
    else
      var first := Step(events[0], s);
      var rest := Run(events[1..], first.next);
      Outcome(first.writes + rest.writes, rest.next)
  }

  lemma AppendAssociative<T>(x: seq<T>, y: seq<T>, z: seq<T>)
    ensures x + (y + z) == (x + y) + z
  {
  }

  /** Running two stretches of events one after the other is running the
      second from where the first left off. */
  lemma {:induction false} RunAppend(a: seq<Event>, b: seq<Event>, s: State)
    ensures Run(a + b, s).writes == Run(a, s).writes + Run(b, Run(a, s).next).writes
    ensures Run(a + b, s).next == Run(b, Run(a, s).next).next
    decreases |a|
  {
    if |a| == 0 {
      assert a + b == b;
    } else {
      var first := Step(a[0], s);
      assert (a + b)[0] == a[0];
      assert (a + b)[1..] == a[1..] + b;
      RunAppend(a[1..], b, first.next);
      AppendAssociative(first.writes, Run(a[1..], first.next).writes, Run(b, Run(a, s).next).writes);
    }
  }

  /** The missing-option error reaches the form at most once in the life of
      the component, whatever the fetch, the callouts and the user do between
      renders, and never after it has been shown; the final flag records
      whether it has been, so stretches of a run combine. */
  lemma {:induction false} MissingOptionErrorAtMostOnce(events: seq<Event>, s: State)
    ensures ErrorCount(Run(events, s).writes) <= (if s.shownMissingOptionError then 0 else 1)
    ensures Run(events, s).next.shownMissingOptionError
      == (s.shownMissingOptionError || ErrorCount(Run(events, s).writes) > 0)
    decreases |events|
  {
    if |events| > 0 {
      var first := Step(events[0], s);
      MissingOptionErrorAtMostOnce(events[1..], first.next);
      ErrorCountAppend(first.writes, Run(events[1..], first.next).writes);
    }
  }

  /** A ready render of a bound field with no selection pending writes
      nothing but, possibly, the missing-option error: the field keeps its
      value and `newAppSettings` is left alone. */
  lemma BoundFieldWritesOnlyError(p: Props, s: State)
    requires !p.readOnly && s.appSettings.Some? && s.selectedItem.None? && p.fieldValue != ""
    ensures forall w :: w in Render(p, s).writes ==> w == SetFieldError(p.fieldName)
  {
    var f := Render(p, s);
    assert AutoSelectWrites(p.fieldName, p.fieldValue, f.view.options) == [];
    assert OnChange(s.selectedItem, p.fieldName, s.appSettings.value).writes == [];
  }

  /** The value picked on load is one of the options, so once the form holds
      it the next render does not report it missing. */
  lemma AutoSelectedValueIsNotMissing(p: Props, s: State)
    requires !p.readOnly && s.appSettings.Some? && s.selectedItem.None?
    requires AutoSelect(p.fieldValue, FilterResourcesFromAppSetting(p.kind, s.appSettings.value, PendingName(s))).Some?
    ensures var f := Render(p, s);
      var p' := p.(fieldValue := AutoSelect(p.fieldValue, f.view.options).value);
      !(SetFieldError(p.fieldName) in Render(p', f.next).writes)
  {
  }
}

=== FILE: resource_filter.dfy ===
/**
 The setting classifier behind the binding "resource" dropdown: from the
 app's settings and the binding's resource kind it derives the ordered list
 of dropdown options, each naming a setting whose value looks like a
 connection string for that kind, headed by a "(new)" option for a setting
 the user has just created but not yet saved.
 */
module ResourceFilter {
  import opened Wrappers
  import opened Strings
  import opened AppSettings

  /** `BindingSettingResource`, plus any other value a binding's `resource` may hold. */
  datatype ResourceKind = Storage | EventHub | ServiceBus | AppSetting | DocumentDB | Unrecognised(name: string)
  {
    predicate IsKnown() { !Unrecognised? }
  }

  /** `IDropdownOption`; `data` carries the value of a setting still to be saved. */
  datatype DropdownOption = DropdownOption(key: string, text: string, data: Option<string>)

  /** The option listing an existing setting: shown under its own name. */
  function PlainOption(key: string): DropdownOption
  {
    DropdownOption(key, key, None)
  }

  /** The synthetic first option for a pending new setting named `name`. */
  function NewOption(name: string): DropdownOption
  {
    DropdownOption(name, name + " (new)", None)
  }

  /** The head every known kind starts its list with: the "(new)" option
      when a non-empty pending name is given, nothing otherwise. */
  function NewOptions(pending: Option<string>): (r: seq<DropdownOption>)
    ensures |r| == (if IsTruthy(pending) then 1 else 0)
  {
    if IsTruthy(pending) then [NewOption(pending.value)] else []
  }

  /** The loop over `Object.keys(appSettings)` shared by every kind: one plain
      option per setting that `keep` accepts, in settings order. */
  function Scan(s: Settings, keep: (string, string) -> bool): (r: seq<DropdownOption>)
    ensures |r| <= |s|
    ensures forall i :: 0 <= i < |r| ==> r[i] == PlainOption(r[i].key)
  {
    if |s| == 0 then []
    else (if keep(s[0].key, s[0].value) then [PlainOption(s[0].key)] else []) + Scan(s[1..], keep)
  }

  /** Every listed option names a setting that `keep` accepts: the one at
      position `j`. */
  lemma {:induction false} ScanSound(s: Settings, keep: (string, string) -> bool, i: int) returns (j: int)
    requires 0 <= i < |Scan(s, keep)|
    ensures 0 <= j < |s| && s[j].key == Scan(s, keep)[i].key && keep(s[j].key, s[j].value)
    decreases |s|
  {
    var r := Scan(s, keep);
    if keep(s[0].key, s[0].value) && i == 0 {
      j := 0;
    } else {
      var i' := if keep(s[0].key, s[0].value) then i - 1 else i;
      assert r[i] == Scan(s[1..], keep)[i'];
      var j' := ScanSound(s[1..], keep, i');
      assert s[j' + 1] == s[1..][j'];
      j := j' + 1;
    }
  }

  /** Every setting that `keep` accepts is listed. */
  lemma {:induction false} ScanComplete(s: Settings, keep: (string, string) -> bool, j: int)
    requires 0 <= j < |s| && keep(s[j].key, s[j].value)
    ensures PlainOption(s[j].key) in Scan(s, keep)
    decreases |s|
  {
    if j > 0 {
      assert s[1..][j - 1] == s[j];
      ScanComplete(s[1..], keep, j - 1);
    }
  }

  /** Scanning two runs of settings one after the other lists the first
      run's options, then the second's: the scan keeps settings order. */
  lemma {:induction false} ScanAppend(a: Settings, b: Settings, keep: (string, string) -> bool)
    ensures Scan(a + b, keep) == Scan(a, keep) + Scan(b, keep)
    decreases |a|
  {
    if |a| > 0 {
      var first := if keep(a[0].key, a[0].value) then [PlainOption(a[0].key)] else [];
      assert (a + b)[0] == a[0];
      assert (a + b)[1..] == a[1..] + b;
      calc {
        Scan(a + b, keep);
        first + Scan(a[1..] + b, keep);
        { ScanAppend(a[1..], b, keep); }
        first + (Scan(a[1..], keep) + Scan(b, keep));
        Scan(a, keep) + Scan(b, keep);
      }
    } else {
      assert a + b == b;
    }
  }

  /** A scan that accepts everything lists every setting, in order. */
  lemma {:induction false} ScanAcceptingAll(s: Settings, keep: (string, string) -> bool)
    requires forall k, v :: keep(k, v)
    ensures |Scan(s, keep)| == |s|
    ensures forall i :: 0 <= i < |s| ==> Scan(s, keep)[i] == PlainOption(s[i].key)
    decreases |s|
  {
    if |s| > 0 {
      ScanAcceptingAll(s[1..], keep);
    }
  }

  /** A scan lists nothing under a name its test always refuses. */
  lemma {:induction false} ScanAvoids(s: Settings, keep: (string, string) -> bool, name: string)
    requires forall k, v :: keep(k, v) ==> k != name
    ensures forall i :: 0 <= i < |Scan(s, keep)| ==> Scan(s, keep)[i].key != name
    decreases |s|
  {
    if |s| > 0 {
      ScanAvoids(s[1..], keep, name);
    }
  }

  predicate IsStorageConnection(value: string)
  {
    var v := ToLower(value);
    Contains(v, "accountname") && Contains(v, "accountkey")
  }

  predicate IsServiceBusConnection(value: string)
  {
    var v := ToLower(value);
    Contains(v, "sb://") && Contains(v, "sharedaccesskeyname")
  }

  predicate IsDocumentDBConnection(value: string)
  {
    var v := ToLower(value);
    Contains(v, "accountendpoint") && Contains(v, "documents")
  }

  /** Which settings a kind lists after its head: the per-kind test of the
      lower-cased value; Storage alone also skips the pending name. */
  predicate Accepts(kind: ResourceKind, pending: Option<string>, key: string, value: string)
  {
    match kind
    case Storage => IsStorageConnection(value) && pending != Some(key)
    case EventHub | ServiceBus => IsServiceBusConnection(value)
    case AppSetting => true
    case DocumentDB => IsDocumentDBConnection(value)
    case Unrecognised(_) => false
  }

  /** The test a kind's loop applies to each setting. */
  function KindTest(kind: ResourceKind, pending: Option<string>): (string, string) -> bool
  {
    (key: string, value: string) => Accepts(kind, pending, key, value)
  }

  /** `r` is the head for `pending` followed by at most `n` options, each
      shown under its own name with nothing to save. */
  predicate HeadThenPlain(r: seq<DropdownOption>, pending: Option<string>, n: nat)
  {
    var h := |NewOptions(pending)|;
    && h <= |r| <= h + n
    && r[..h] == NewOptions(pending)
    && forall i :: h <= i < |r| ==> r[i] == PlainOption(r[i].key)
  }

  /** A head followed by a scan of `s` is a head followed by plain options. */
  lemma HeadThenScan(s: Settings, pending: Option<string>, keep: (string, string) -> bool)
    ensures HeadThenPlain(NewOptions(pending) + Scan(s, keep), pending, |s|)
  {
    var head: seq<DropdownOption> := NewOptions(pending);
    var listed: seq<DropdownOption> := Scan(s, keep);
    var r := head + listed;
    assert r[..|head|] == head;
    forall i | |head| <= i < |r|
      ensures r[i] == PlainOption(r[i].key)
    {
      assert r[i] == listed[i - |head|];
    }
  }

  /** Storage's test refuses the pending name, whatever its value. */
  lemma StorageTestSkipsPending(pending: Option<string>)
    requires pending.Some?
    ensures forall k, v :: KindTest(Storage, pending)(k, v) ==> k != pending.value
  {
    forall k, v | KindTest(Storage, pending)(k, v)
      ensures k != pending.value
    {
      assert Accepts(Storage, pending, k, v);
    }
  }

  /** No option after the head of `r` is listed under `name`. */
  predicate SkipsAfterHead(r: seq<DropdownOption>, pending: Option<string>, name: string)
  {
    forall i :: |NewOptions(pending)| <= i < |r| ==> r[i].key != name
  }

  /** After the head, Storage's list never names the pending setting. */
  lemma StorageScanSkipsPending(s: Settings, pending: Option<string>)
    requires pending.Some?
    ensures SkipsAfterHead(NewOptions(pending) + Scan(s, KindTest(Storage, pending)), pending, pending.value)
  {
    var head: seq<DropdownOption> := NewOptions(pending);
    var listed: seq<DropdownOption> := Scan(s, KindTest(Storage, pending));
    StorageTestSkipsPending(pending);
    ScanAvoids(s, KindTest(Storage, pending), pending.value);
    forall i | |head| <= i < |head + listed|
      ensures (head + listed)[i].key != pending.value
    {
      assert (head + listed)[i] == listed[i - |head|];
    }
  }

  /** `getStorageSettings`: after the head, never the pending name. */
  function GetStorageSettings(s: Settings, pending: Option<string>): (r: seq<DropdownOption>)
    ensures HeadThenPlain(r, pending, |s|)
    ensures pending.Some? ==> SkipsAfterHead(r, pending, pending.value)
  {
    HeadThenScan(s, pending, KindTest(Storage, pending));
    if pending.Some? then
      StorageScanSkipsPending(s, pending);
      NewOptions(pending) + Scan(s, KindTest(Storage, pending))
    else
      NewOptions(pending) + Scan(s, KindTest(Storage, pending))
  }

  /** `getEventHubAndServiceBusSettings`. */
  function GetEventHubAndServiceBusSettings(s: Settings, pending: Option<string>): (r: seq<DropdownOption>)
    ensures HeadThenPlain(r, pending, |s|)
  {
    HeadThenScan(s, pending, KindTest(EventHub, pending));
    NewOptions(pending) + Scan(s, KindTest(EventHub, pending))
  }

  /** A head followed by a scan that accepts everything lists every
      setting, in order, after the head. */
  lemma HeadThenScanAll(s: Settings, pending: Option<string>, keep: (string, string) -> bool)
    requires forall k, v :: keep(k, v)
    ensures var r := NewOptions(pending) + Scan(s, keep);
      && |r| == |NewOptions(pending)| + |s|
      && forall i :: 0 <= i < |s| ==> r[|NewOptions(pending)| + i] == PlainOption(s[i].key)
  {
    var head: seq<DropdownOption> := NewOptions(pending);
    var listed: seq<DropdownOption> := Scan(s, keep);
    ScanAcceptingAll(s, keep);
    forall i | 0 <= i < |s|
      ensures (head + listed)[|head| + i] == PlainOption(s[i].key)
    {
      assert (head + listed)[|head| + i] == listed[i];
    }
  }

  /** `getAppSettings`: every setting, whatever its value. */
  function GetAppSettings(s: Settings, pending: Option<string>): (r: seq<DropdownOption>)
    ensures HeadThenPlain(r, pending, |s|)
    ensures |r| == |NewOptions(pending)| + |s|
    ensures forall i :: 0 <= i < |s| ==> r[|NewOptions(pending)| + i] == PlainOption(s[i].key)
  {
    HeadThenScan(s, pending, KindTest(AppSetting, pending));
    HeadThenScanAll(s, pending, KindTest(AppSetting, pending));
    NewOptions(pending) + Scan(s, KindTest(AppSetting, pending))
  }

  /** `getDocumentDBSettings`. */
  function GetDocumentDBSettings(s: Settings, pending: Option<string>): (r: seq<DropdownOption>)
    ensures HeadThenPlain(r, pending, |s|)
  {
    HeadThenScan(s, pending, KindTest(DocumentDB, pending));
    NewOptions(pending) + Scan(s, KindTest(DocumentDB, pending))
  }

  /** `filterResourcesFromAppSetting`: the dropdown options for a binding of
      the given kind. An unrecognised kind gets no options at all, not even
      the "(new)" one. */
  function FilterResourcesFromAppSetting(kind: ResourceKind, s: Settings, pending: Option<string>): (r: seq<DropdownOption>)
    ensures !kind.IsKnown() ==> r == []
    ensures kind.IsKnown() ==> |r| >= |NewOptions(pending)| && r[..|NewOptions(pending)|] == NewOptions(pending)
  {
    match kind
    case Storage => GetStorageSettings(s, pending)
    case EventHub | ServiceBus => GetEventHubAndServiceBusSettings(s, pending)
    case AppSetting => GetAppSettings(s, pending)
    case DocumentDB => GetDocumentDBSettings(s, pending)
    case Unrecognised(_) => []
  }

  /** The options a known kind lists after its head. */
  function Listed(kind: ResourceKind, s: Settings, pending: Option<string>): (r: seq<DropdownOption>)
    requires kind.IsKnown()
  {
    FilterResourcesFromAppSetting(kind, s, pending)[|NewOptions(pending)|..]
  }

  /** The kind whose test a kind's loop uses: Service Bus shares Event Hub's. */
  function TestKind(kind: ResourceKind): ResourceKind
  {
    if kind == ServiceBus then EventHub else kind
  }

  lemma SharedTest(kind: ResourceKind, pending: Option<string>, key: string, value: string)
    ensures KindTest(TestKind(kind), pending)(key, value) == Accepts(kind, pending, key, value)
  {
  }

  /** After its head, every known kind lists what a scan with its test
      lists; Service Bus shares the Event Hub test. */
  lemma ListedIsScan(kind: ResourceKind, s: Settings, pending: Option<string>)
    requires kind.IsKnown()
    ensures Listed(kind, s, pending) == Scan(s, KindTest(TestKind(kind), pending))
  {
  }

  /** Every option after the head names a setting of the map that the
      kind's test accepts (the one at position `j`), and is shown under
      that name. */
  lemma ListedAreAccepted(kind: ResourceKind, s: Settings, pending: Option<string>, i: int) returns (j: int)
    requires kind.IsKnown()
    requires 0 <= i < |Listed(kind, s, pending)|
    ensures 0 <= j < |s| && Accepts(kind, pending, s[j].key, s[j].value)
    ensures Listed(kind, s, pending)[i] == PlainOption(s[j].key)
  {
    ListedIsScan(kind, s, pending);
    j := ScanSound(s, KindTest(TestKind(kind), pending), i);
    SharedTest(kind, pending, s[j].key, s[j].value);
  }

  /** Every setting the kind's test accepts is listed after the head. */
  lemma AcceptedAreListed(kind: ResourceKind, s: Settings, pending: Option<string>, j: int)
    requires kind.IsKnown()
    requires 0 <= j < |s| && Accepts(kind, pending, s[j].key, s[j].value)
    ensures PlainOption(s[j].key) in Listed(kind, s, pending)
  {
    ListedIsScan(kind, s, pending);
    SharedTest(kind, pending, s[j].key, s[j].value);
    ScanComplete(s, KindTest(TestKind(kind), pending), j);
  }

  /** In a settings object a listed name passes the test with its own value. */
  lemma ListedNameAccepted(kind: ResourceKind, s: Settings, pending: Option<string>, i: int, j: int)
    requires kind.IsKnown() && DistinctKeys(s)
    requires 0 <= j < |s| && 0 <= i < |Listed(kind, s, pending)|
    requires Listed(kind, s, pending)[i] == PlainOption(s[j].key)
    ensures Accepts(kind, pending, s[j].key, s[j].value)
  {
    var j' := ListedAreAccepted(kind, s, pending, i);
    assert PlainOption(s[j'].key) == PlainOption(s[j].key);
    SameKeySamePosition(s, j', j);
  }

  /** In a settings object only settings the test accepts are listed. */
  lemma ListedOnlyIfAccepted(kind: ResourceKind, s: Settings, pending: Option<string>, j: int)
    requires kind.IsKnown() && DistinctKeys(s)
    requires 0 <= j < |s| && PlainOption(s[j].key) in Listed(kind, s, pending)
    ensures Accepts(kind, pending, s[j].key, s[j].value)
  {
    var l := Listed(kind, s, pending);
    var i :| 0 <= i < |l| && l[i] == PlainOption(s[j].key);
    ListedNameAccepted(kind, s, pending, i, j);
  }

  /** For a settings object (names distinct), a setting is listed after the
      head exactly when the kind's test accepts it. */
  lemma ListedIffAccepted(kind: ResourceKind, s: Settings, pending: Option<string>, j: int)
    requires kind.IsKnown() && DistinctKeys(s)
    requires 0 <= j < |s|
    ensures PlainOption(s[j].key) in Listed(kind, s, pending) <==> Accepts(kind, pending, s[j].key, s[j].value)
  {
    if PlainOption(s[j].key) in Listed(kind, s, pending) {
      ListedOnlyIfAccepted(kind, s, pending, j);
    } else if Accepts(kind, pending, s[j].key, s[j].value) {
      AcceptedAreListed(kind, s, pending, j);
    }
  }

  /** The options keep settings order: filtering a settings object made of
      two runs lists the first run's settings before the second's. */
  lemma ListedKeepsOrder(kind: ResourceKind, a: Settings, b: Settings, pending: Option<string>)
    requires kind.IsKnown()
    ensures Listed(kind, a + b, pending) == Listed(kind, a, pending) + Listed(kind, b, pending)
  {
    ListedIsScan(kind, a + b, pending);
    ListedIsScan(kind, a, pending);
    ListedIsScan(kind, b, pending);
    ScanAppend(a, b, KindTest(TestKind(kind), pending));
  }

  /** Options listed after the head are shown under their own names. */
  lemma ListedArePlain(kind: ResourceKind, s: Settings, pending: Option<string>)
    requires kind.IsKnown()
    ensures forall i :: 0 <= i < |Listed(kind, s, pending)| ==> Listed(kind, s, pending)[i].text == Listed(kind, s, pending)[i].key
  {
    ListedIsScan(kind, s, pending);
  }

  /** The only option whose text differs from its key is the synthetic
      "(new)" one, and it is present, in first place, exactly when the kind
      is known and a non-empty pending name is given. */
  lemma NewOptionIffPending(kind: ResourceKind, s: Settings, pending: Option<string>)
    ensures var r := FilterResourcesFromAppSetting(kind, s, pending);
      (exists i :: 0 <= i < |r| && r[i].text != r[i].key) <==> kind.IsKnown() && IsTruthy(pending)
    ensures var r := FilterResourcesFromAppSetting(kind, s, pending);
      kind.IsKnown() && IsTruthy(pending) ==> r[0] == NewOption(pending.value)
    ensures var r := FilterResourcesFromAppSetting(kind, s, pending);
      forall i :: 0 < i < |r| ==> r[i].text == r[i].key
  {
    var r := FilterResourcesFromAppSetting(kind, s, pending);
    if kind.IsKnown() {
      var head := NewOptions(pending);
      var listed := Listed(kind, s, pending);
      ListedArePlain(kind, s, pending);
      assert r == head + listed;
      if IsTruthy(pending) {
        assert r[0] == NewOption(pending.value);
        assert |r[0].text| == |r[0].key| + 6;
        assert forall i :: 0 < i < |r| ==> r[i] == listed[i - 1];
      } else {
        assert r == listed;
      }
    }
  }

  /** For Storage the pending name is never listed a second time. */
  lemma StorageListsPendingOnce(s: Settings, pending: Option<string>, i: int)
    requires IsTruthy(pending)
    requires 0 <= i < |FilterResourcesFromAppSetting(Storage, s, pending)|
    requires FilterResourcesFromAppSetting(Storage, s, pending)[i].key == pending.value
    ensures i == 0
  {
  }

  /** The other kinds do not skip the pending name: once a setting of that
      name with a matching value is in the map, it is listed after the
      "(new)" option as well. */
  lemma EventHubListsPendingTwice(kind: ResourceKind, s: Settings, pending: Option<string>, j: int)
    requires kind == EventHub || kind == ServiceBus
    requires IsTruthy(pending)
    requires 0 <= j < |s| && s[j].key == pending.value && IsServiceBusConnection(s[j].value)
    ensures var r := FilterResourcesFromAppSetting(kind, s, pending);
      r[0].key == pending.value && exists i :: 0 < i < |r| && r[i].key == pending.value
  {
    var r := FilterResourcesFromAppSetting(kind, s, pending);
    AcceptedAreListed(kind, s, pending, j);
    var l := Listed(kind, s, pending);
    var i :| 0 <= i < |l| && l[i] == PlainOption(s[j].key);
    assert r[i + 1] == l[i];
  }

  /** AppSetting lists every setting, by name, in settings order. */
  lemma AppSettingListsEveryKey(s: Settings, pending: Option<string>)
    ensures Keys(s) == seq(|Listed(AppSetting, s, pending)|, i requires 0 <= i < |Listed(AppSetting, s, pending)| => Listed(AppSetting, s, pending)[i].key)
  {
  }

  /** Event Hub and Service Bus bindings are offered the same options. */
  lemma EventHubSameAsServiceBus(s: Settings, pending: Option<string>)
    ensures FilterResourcesFromAppSetting(EventHub, s, pending) == FilterResourcesFromAppSetting(ServiceBus, s, pending)
  {
  }

  /** Lower-casing a value around the two Service Bus markers, each written
      in any case, leaves the parts lower-cased and the markers in their
      lower-case spelling. */
  lemma ServiceBusShapeLowered(a: string, m1: string, b: string, m2: string, c: string)
    requires ToLower(m1) == "sb://" && ToLower(m2) == "sharedaccesskeyname"
    ensures ToLower(a + m1 + b + m2 + c)
         == ToLower(a) + "sb://" + ToLower(b) + "sharedaccesskeyname" + ToLower(c)
  {
    ToLowerAppend(a + m1 + b + m2, c);
    ToLowerAppend(a + m1 + b, m2);
    ToLowerAppend(a + m1, b);
    ToLowerAppend(a, m1);
  }

  /** Any value with `sb://` followed later by `SharedAccessKeyName`, the
      markers and the text around them in whatever case, is taken for an
      Event Hub or Service Bus connection. */
  lemma ServiceBusShape(a: string, m1: string, b: string, m2: string, c: string)
    requires ToLower(m1) == "sb://" && ToLower(m2) == "sharedaccesskeyname"
    ensures IsServiceBusConnection(a + m1 + b + m2 + c)
  {
    ServiceBusShapeLowered(a, m1, b, m2, c);
    var la, lb, lc := ToLower(a), ToLower(b), ToLower(c);
    var low := la + "sb://" + lb + "sharedaccesskeyname" + lc;
    assert low == la + "sb://" + (lb + "sharedaccesskeyname" + lc);
    ContainsInside(la, "sb://", lb + "sharedaccesskeyname" + lc);
    assert low == (la + "sb://" + lb) + "sharedaccesskeyname" + lc;
    ContainsInside(la + "sb://" + lb, "sharedaccesskeyname", lc);
  }

  /** Worked case: markers written in capitals are recognised too. */
  lemma ServiceBusCapitalsExample()
    ensures IsServiceBusConnection("Endpoint=" + "SB://" + "x;" + "SHAREDACCESSKEYNAME" + "=y")
  {
    assert ToLower("SB://") == "sb://";
    assert ToLower("SHAREDACCESSKEYNAME") == "sharedaccesskeyname";
    ServiceBusShape("Endpoint=", "SB://", "x;", "SHAREDACCESSKEYNAME", "=y");
  }

  /** Worked case: of an Event Hub connection string and a value without a
      shared access key name, only the first is offered. */
  lemma ServiceBusExample(hub: Entry, plain: Entry)
    requires hub == Entry("hub", "Endpoint=" + "sb://" + "ns/;" + "SharedAccessKeyName" + "=x")
    requires plain == Entry("plain", "Endpoint=sb://ns/")
    ensures FilterResourcesFromAppSetting(EventHub, [hub, plain], None) == [PlainOption("hub")]
  {
    var keyName := "SharedAccessKeyName";
    assert ToLower("sb://") == "sb://";
    assert ToLower(keyName) == "sharedaccesskeyname";
    ServiceBusShape("Endpoint=", "sb://", "ns/;", keyName, "=x");
    assert !IsServiceBusConnection("Endpoint=sb://ns/");
    var s := [hub, plain];
    var test := KindTest(EventHub, None);
    assert test(hub.key, hub.value) && !test(plain.key, plain.value);
    assert s[1..][1..] == [];
    assert Scan(s[1..], test) == [] + Scan(s[1..][1..], test);
    assert Scan(s, test) == [PlainOption("hub")] + Scan(s[1..], test);
  }
}

=== FILE: setting_name.dfy ===
/**
 `generateAppSettingName`: a setting name that collides with none of the
 existing names, ignoring case, found by trying the default name and then
 the default name followed by 2, 3, ...
 */
module SettingName {
  import opened Strings

  /** The name tried on the `count`-th pass: the default itself on the
      first, the default followed by the decimal count afterwards. */
  function Candidate(defaultName: string, count: nat): string
  {
    if count <= 1 then defaultName else defaultName + NatToString(count)
  }

  /** The candidate of a later pass is the default followed by the count's
      decimal text, which reads back as the count. */
  lemma CandidateReadsBack(defaultName: string, count: nat)
    ensures count <= 1 ==> Candidate(defaultName, count) == defaultName
    ensures count >= 2 ==>
      var r := Candidate(defaultName, count);
      && |r| > |defaultName| && r[..|defaultName|] == defaultName
      && AllDigits(r[|defaultName|..]) && ParseDecimal(r[|defaultName|..]) == count
  {
    if count >= 2 {
      ParseNatToString(count);
      assert Candidate(defaultName, count)[|defaultName|..] == NatToString(count);
    }
  }

  /** Some existing name equals `name` when case is ignored. */
  predicate Collides(keys: seq<string>, name: string)
  {
    exists i :: 0 <= i < |keys| && EqualsIgnoreCase(keys[i], name)
  }

  /** Whether a name collides does not depend on the case it is written in. */
  lemma CollidesIgnoresCase(keys: seq<string>, name: string)
    ensures Collides(keys, name) <==> Collides(keys, ToLower(name))
  {
  }

  /** `name` is what the search settles on: the first candidate that is free. */
  ghost predicate IsFirstFreeName(keys: seq<string>, defaultName: string, name: string)
  {
    exists count :: 1 <= count && name == Candidate(defaultName, count) && !Collides(keys, name) &&
      forall c :: 1 <= c < count ==> Collides(keys, Candidate(defaultName, c))
  }

  /** Distinct passes try names that differ even when case is ignored. */
  lemma CandidatesDiffer(defaultName: string, a: nat, b: nat)
    requires 1 <= a < b
    ensures ToLower(Candidate(defaultName, a)) != ToLower(Candidate(defaultName, b))
  {
    var digitsB := NatToString(b);
    ToLowerAppend(defaultName, digitsB);
    ToLowerKeepsDigits(digitsB);
    var lowB := ToLower(defaultName) + digitsB;
    if a >= 2 {
      var digitsA := NatToString(a);
      ToLowerAppend(defaultName, digitsA);
      ToLowerKeepsDigits(digitsA);
      var lowA := ToLower(defaultName) + digitsA;
      if lowA == lowB {
        assert digitsA == lowA[|defaultName|..] == lowB[|defaultName|..] == digitsB;
        NatToStringInjective(a, b);
      }
    } else {
      assert |lowB| > |ToLower(defaultName)|;
    }
  }

  /** The lower-cased existing names: no more of them than there are names. */
  ghost function LoweredKeys(keys: seq<string>): (r: set<string>)
    ensures |r| <= |keys|
    ensures forall i :: 0 <= i < |keys| ==> ToLower(keys[i]) in r
  {
    if |keys| == 0 then {}
    else LoweredKeys(keys[..|keys| - 1]) + {ToLower(keys[|keys| - 1])}
  }

  /** The lower-cased names of the first `n` passes: `n` different names. */
  ghost function TriedNames(defaultName: string, n: nat): (r: set<string>)
    ensures |r| == n
    ensures forall c :: 1 <= c <= n ==> ToLower(Candidate(defaultName, c)) in r
    ensures forall x :: x in r ==> exists c :: 1 <= c <= n && x == ToLower(Candidate(defaultName, c))
  {
    if n == 0 then {}
    else
      var earlier := TriedNames(defaultName, n - 1);
      var latest := ToLower(Candidate(defaultName, n));
      assert latest !in earlier by {
        forall c | 1 <= c < n
          ensures ToLower(Candidate(defaultName, c)) != latest
        {
          CandidatesDiffer(defaultName, c, n);
        }
      }
      earlier + {latest}
  }

  lemma SubsetSize<T>(a: set<T>, b: set<T>)
    requires a <= b
    ensures |a| <= |b|
  {
    assert b == a + (b - a);
  }

  /** At most `|keys|` passes can collide: this bounds the search. */
  lemma CollisionsBounded(keys: seq<string>, defaultName: string, n: nat)
    requires forall c :: 1 <= c <= n ==> Collides(keys, Candidate(defaultName, c))
    ensures n <= |keys|
  {
    var tried := TriedNames(defaultName, n);
    var lowered := LoweredKeys(keys);
    forall x | x in tried
      ensures x in lowered
    {
      var c :| 1 <= c <= n && x == ToLower(Candidate(defaultName, c));
      var i :| 0 <= i < |keys| && EqualsIgnoreCase(keys[i], Candidate(defaultName, c));
      assert x == ToLower(keys[i]);
    }
    SubsetSize(tried, lowered);
  }

  /** `generateAppSettingName`. */
  method GenerateAppSettingName(keys: seq<string>, defaultName: string) returns (name: string)
    ensures !Collides(keys, name)
    ensures IsFirstFreeName(keys, defaultName, name)
    ensures !Collides(keys, defaultName) ==> name == defaultName
    ensures Collides(keys, defaultName) ==>
      exists count :: 2 <= count <= |keys| + 1 && name == defaultName + NatToString(count)
  {
    name := defaultName;
    var count := 1;
    while Collides(keys, name)
      invariant 1 <= count <= |keys| + 1
      invariant name == Candidate(defaultName, count)
      invariant forall c :: 1 <= c < count ==> Collides(keys, Candidate(defaultName, c))
      decreases |keys| + 1 - count
    {
      CollisionsBounded(keys, defaultName, count);
      count := count + 1;
      name := defaultName + NatToString(count);
    }
  }

  /** The first free name is unique, so the properties of
      `GenerateAppSettingName` pin its result down. */
  lemma FirstFreeNameUnique(keys: seq<string>, defaultName: string, a: string, b: string)
    requires IsFirstFreeName(keys, defaultName, a)
    requires IsFirstFreeName(keys, defaultName, b)
    ensures a == b
  {
    var ca :| 1 <= ca && a == Candidate(defaultName, ca) && !Collides(keys, a) &&
      forall c :: 1 <= c < ca ==> Collides(keys, Candidate(defaultName, c));
    var cb :| 1 <= cb && b == Candidate(defaultName, cb) && !Collides(keys, b) &&
      forall c :: 1 <= c < cb ==> Collides(keys, Candidate(defaultName, c));
    assert ca == cb;
  }

  /** A first collision is followed by the suffix 2, not 1. */
  lemma FirstCollisionGivesTwo(keys: seq<string>, defaultName: string)
    requires Collides(keys, defaultName) && !Collides(keys, defaultName + "2")
    ensures IsFirstFreeName(keys, defaultName, defaultName + "2")
  {
    assert NatToString(2) == "2";
    assert Candidate(defaultName, 2) == defaultName + "2";
  }

  /** Worked case: a free default is kept. */
  lemma FreeDefaultExample()
    ensures IsFirstFreeName(["bar"], "foo", "foo")
  {
    assert ToLower("bar") == "bar" && ToLower("foo") == "foo";
    assert !Collides(["bar"], "foo");
    assert IsFirstFreeName(["bar"], "foo", Candidate("foo", 1));
  }

  /** Worked case: a taken default moves on to the suffix 2. */
  lemma TakenDefaultExample()
    ensures IsFirstFreeName(["foo"], "foo", "foo2")
  {
    assert ToLower("foo") == "foo" && ToLower("foo2") == "foo2";
    assert NatToString(2) == "2";
    assert Candidate("foo", 2) == "foo2";
    assert EqualsIgnoreCase(["foo"][0], Candidate("foo", 1));
    assert !Collides(["foo"], "foo2");
    assert IsFirstFreeName(["foo"], "foo", Candidate("foo", 2));
  }

  /** Worked case: names collide whatever their case. */
  lemma CaseCollisionExample()
    ensures IsFirstFreeName(["FOO"], "foo", "foo2")
  {
    assert ToLower("FOO") == "foo" && ToLower("foo") == "foo" && ToLower("foo2") == "foo2";
    assert NatToString(2) == "2";
    assert Candidate("foo", 2) == "foo2";
    assert EqualsIgnoreCase(["FOO"][0], Candidate("foo", 1));
    assert !Collides(["FOO"], "foo2");
    assert IsFirstFreeName(["FOO"], "foo", Candidate("foo", 2));
  }

  /** The second and third passes try `foo2` and `foo3`, and these and `foo`
      are already lower case. */
  lemma SuffixedNamesLowered()
    ensures ToLower("foo") == "foo" && ToLower("foo2") == "foo2" && ToLower("foo3") == "foo3"
    ensures Candidate("foo", 2) == "foo2" && Candidate("foo", 3) == "foo3"
  {
    assert NatToString(2) == "2" && NatToString(3) == "3";
  }

  /** Worked case: a taken suffix moves on to the next one. */
  lemma TakenSuffixExample()
    ensures IsFirstFreeName(["foo", "foo2"], "foo", "foo3")
  {
    var keys := ["foo", "foo2"];
    SuffixedNamesLowered();
    forall c | 1 <= c < 3
      ensures Collides(keys, Candidate("foo", c))
    {
      assert EqualsIgnoreCase(keys[c - 1], Candidate("foo", c));
    }
    assert !EqualsIgnoreCase(keys[0], "foo3") && !EqualsIgnoreCase(keys[1], "foo3");
    assert !Collides(keys, "foo3");
    assert IsFirstFreeName(keys, "foo", Candidate("foo", 3));
  }
}

=== FILE: strings.dfy ===
/**
 The string operations the resource dropdown relies on: `toLowerCase`,
 `indexOf`, the decimal text a template literal gives a number, JavaScript
 truthiness of an optional string, and case-insensitive equality.
 */
module Strings {
  import opened Wrappers

  predicate IsAsciiUpper(c: char) { 'A' <= c <= 'Z' }

  predicate IsDigit(c: char) { '0' <= c <= '9' }

  predicate AllDigits(s: string) { forall i :: 0 <= i < |s| ==> IsDigit(s[i]) }

  /** Lower-cases one character; only the ASCII capitals change, each to
      its small letter, 32 code points further on. */
  function LowerChar(c: char): (r: char)
    ensures !IsAsciiUpper(r)
    ensures !IsAsciiUpper(c) ==> r == c
    ensures IsAsciiUpper(c) ==> r as int == c as int + 32
  {
    if IsAsciiUpper(c) then (c as int + 32) as char else c
  }

  /** `String.prototype.toLowerCase`, restricted to the ASCII letters. */
  function ToLower(s: string): (r: string)
    ensures |r| == |s|
    ensures forall i :: 0 <= i < |r| ==> !IsAsciiUpper(r[i])
    ensures forall i :: 0 <= i < |s| && !IsAsciiUpper(s[i]) ==> r[i] == s[i]
    ensures forall i :: 0 <= i < |s| && IsAsciiUpper(s[i]) ==> r[i] as int == s[i] as int + 32
  {
    seq(|s|, i requires 0 <= i < |s| => LowerChar(s[i]))
  }

  lemma ToLowerAppend(a: string, b: string)
    ensures ToLower(a + b) == ToLower(a) + ToLower(b)
  {
    assert forall i :: 0 <= i < |a + b| ==> ToLower(a + b)[i] == (ToLower(a) + ToLower(b))[i];
  }

  lemma ToLowerKeepsDigits(s: string)
    requires AllDigits(s)
    ensures ToLower(s) == s
  {
  }

  /** Case-insensitive equality. The repository's `StringUtils.equalsIgnoreCase`
      is not part of this model; it is taken to compare lower-cased texts,
      that is, texts of one length that agree letter by letter up to case. */
  predicate EqualsIgnoreCase(a: string, b: string)
    ensures EqualsIgnoreCase(a, b) <==>
      |a| == |b| && forall i :: 0 <= i < |a| ==> LowerChar(a[i]) == LowerChar(b[i])
  {
    ToLower(a) == ToLower(b)
  }

  /** JavaScript truthiness of a value that is either a string or `undefined`. */
  predicate IsTruthy(s: Option<string>) { s.Some? && s.value != "" }

  /** `sub` occurs in `s` starting at position `i`. */
  predicate OccursAt(s: string, sub: string, i: int)
  {
    0 <= i && i + |sub| <= |s| && s[i..i + |sub|] == sub
  }

  /** The first occurrence of `sub` in `s` at or after `from`, or -1. */
  function IndexFrom(s: string, sub: string, from: nat): (r: int)
    requires from <= |s|
    ensures r == -1 || (from <= r && OccursAt(s, sub, r))
    ensures forall i :: from <= i && (r == -1 || i < r) ==> !OccursAt(s, sub, i)
    decreases |s| - from
  {
    if from + |sub| > |s| then -1
    else if s[from..from + |sub|] == sub then from
    else IndexFrom(s, sub, from + 1)
  }

  /** `String.prototype.indexOf`: the first position of `sub` in `s`, or -1. */
  function IndexOf(s: string, sub: string): (r: int)
    ensures r == -1 || OccursAt(s, sub, r)
    ensures r == -1 <==> forall i :: !OccursAt(s, sub, i)
    ensures r != -1 ==> forall i :: 0 <= i < r ==> !OccursAt(s, sub, i)
  {
    IndexFrom(s, sub, 0)
  }

  /** `s.indexOf(sub) > -1`: `sub` occurs somewhere in `s`. */
  predicate Contains(s: string, sub: string)
    ensures Contains(s, sub) <==> exists i :: OccursAt(s, sub, i)
  {
    IndexOf(s, sub) > -1
  }

  /** A string built around `sub` contains it. */
  lemma ContainsInside(before: string, sub: string, after: string)
    ensures Contains(before + sub + after, sub)
  {
    var s := before + sub + after;
    assert s[|before|..|before| + |sub|] == sub;
    assert OccursAt(s, sub, |before|);
  }

  function DigitChar(d: nat): (c: char)
    requires d < 10
    ensures IsDigit(c)
  {
    ('0' as int + d) as char
  }

  function DigitValue(c: char): (d: nat)
    requires IsDigit(c)
    ensures d < 10
  {
    c as int - '0' as int
  }

  /** The decimal text a template literal produces for a natural number. */
  function NatToString(n: nat): (r: string)
    ensures |r| >= 1 && AllDigits(r)
    ensures r[0] == '0' ==> n == 0
    ensures n < 10 <==> |r| == 1
  {
    if n < 10 then [DigitChar(n)] else NatToString(n / 10) + [DigitChar(n % 10)]
  }

  /** Reads decimal digits back into the number they denote. */
  function ParseDecimal(s: string): nat
    requires AllDigits(s)
  {
    if |s| == 0 then 0 else 10 * ParseDecimal(s[..|s| - 1]) + DigitValue(s[|s| - 1])
  }

  lemma {:induction false} ParseNatToString(n: nat)
    ensures ParseDecimal(NatToString(n)) == n
    decreases n
  {
    var s := NatToString(n);
    if n < 10 {
      assert s[..0] == [];
    } else {
      ParseNatToString(n / 10);
      assert s[..|s| - 1] == NatToString(n / 10);
    }
  }

  lemma NatToStringInjective(a: nat, b: nat)
    requires NatToString(a) == NatToString(b)
    ensures a == b
  {
    ParseNatToString(a);
    ParseNatToString(b);
  }
}

=== FILE: wrappers.dfy ===
/** The optional value used wherever the dropdown's code accepts `undefined`. */
module Wrappers {

  datatype Option<+T> = None | Some(value: T)
}
